=== FILE: README.md ===
# tracker — a Dafny model of the function-call tracker

The Go package `tracker` records checkpoints of a running program. `New`
opens a trace with a first checkpoint. Each `Update` appends a checkpoint
that holds:

- the caller's name;
- the time since the previous checkpoint (`Dur`);
- the time since the first checkpoint (`StartDif`);
- the error the caller handed in.

`Configure` and the `With*` setters choose which columns a table shows.
`TableRender.Render` builds:

- a header row;
- one row per checkpoint;
- a "track" column of `*` marks whose length follows the checkpoint's duration.

The model has five modules:

- `Clock` (clock.dfy): Go's `time.Duration` as an int64 range, and the
  saturating subtraction behind `Meta.Since`. Clock readings are always
  arguments.
- `Trace` (trace.dfy): `Meta`, `MetaData`, `MaxDuration`, `MinDuration`.
- `Columns` (columns.dfy): `Options`, the setters, and the fixed column order.
- `TableRender` (table.dfy): `createHeaders`, `createRow`, the track loop and
  the row loop of `TableRender.Render`. It returns the cells the table
  library is handed.
- `Tracker` (tracker.dfy): `Track`, `New`, `Update`, `Configure`, the
  setter chain on a track's options, and the shape of every trace these
  build.

Facts about the code that shape the model:

- The track loop rounds up: a positive duration gets `⌈Dur/step⌉` marks.
- The step `MaxDuration / Divider` is computed without any guard. Rendering
  therefore has a precondition, `Renderable`, that excludes a zero divider
  on any non-empty trace, and a zero or negative step whenever some
  duration is positive (see "## Left out" for what Go does with those). `RenderableIff` spells out
  which inputs it admits:
  - an empty trace; or
  - a non-zero divider with no positive duration; or
  - a divider between 1 and the longest duration.
- `MinDuration` slices `m[1:]`, so it panics on an empty trace; the model
  requires at least one checkpoint.
- `Update` reads the clock three times, in the order the fields are written:
  the new `Start`, then the reading behind `Dur`, then the reading behind
  `StartDif`. The model takes all three readings as arguments.
- Naming a checkpoint makes a slice of length `callerSkip` and reads its first
  entry, so `New` and `Update` on a non-empty trace panic unless `callerSkip`
  is positive; the model requires it.

## Model

| member | source | states |
|---|---|---|
| Clock.Elapsed | tracker.go:140-142 | The time since a start is non-negative when the clock moved forward and non-positive when it moved back; a difference beyond the int64 range saturates to the nearest bound |
| Clock.ElapsedExact | tracker.go:140-142 | When the true difference fits in a Duration, `Since` returns it exactly |
| Clock.ElapsedMonotone | tracker.go:140-142 | A later reading never yields a shorter time since the same start |
| Clock.ElapsedAntitone | tracker.go:140-142 | Measured from a later start, the same reading never yields a longer time |
| Trace.MaxDuration | tracker.go:118-126 | The result is at least 0 and at least every `Dur`, and it is 0 or some entry's `Dur` |
| Trace.MaxDurationCharacterized | tracker.go:118-126 | Those three facts determine the maximum uniquely, in both directions |
| Trace.LeastDuration | tracker.go:132-136 | The running minimum is at most every `Dur` and is attained by some entry |
| Trace.LeastDurationCharacterized | tracker.go:132-136 | Those two facts determine the minimum uniquely, in both directions |
| Trace.MinDuration | tracker.go:128-138 | For one checkpoint 0; otherwise the least `Dur` among the checkpoints after the first, attained by one of them |
| Trace.MinDurationAppend | tracker.go:128-138 | The first checkpoint never takes part; the first later checkpoint seeds the minimum and later ones replace it only when strictly smaller |
| Trace.MinDurationAtMostMax | tracker.go:118-138 | The minimum never exceeds the maximum |
| Columns.NoOptions | tracker.go:230-233 | `new(Options)` has every flag off |
| Columns.WithErrors | tracker.go:235-238 | Sets the errors flag and leaves every other flag as it was |
| Columns.WithName | tracker.go:240-243 | Sets the name flag and leaves every other flag as it was |
| Columns.WithSinceStart | tracker.go:245-248 | Sets the since-start flag and leaves every other flag as it was |
| Columns.WithDuration | tracker.go:250-253 | Sets the duration flag and leaves every other flag as it was |
| Columns.WithTrack | tracker.go:255-258 | Sets the track flag and leaves every other flag as it was |
| Columns.Enable | tracker.go:235-258 | Each setter switches on its own column and leaves the link flag alone |
| Columns.EnableAll | tracker.go:235-258 | A chain of setters switches on exactly the columns it names |
| Columns.FlagsDetermineOptions | tracker.go:51-58 | Options with the same flags are the same options |
| Columns.SetterIdempotent | tracker.go:235-258 | Calling a setter twice equals calling it once |
| Columns.SettersCommute | tracker.go:235-258 | Two setters give the same options in either order |
| Columns.ChainOrderIrrelevant | tracker.go:235-258 | Chains naming the same columns, in any order and with repeats, give the same options |
| Columns.SelectMembers | tracker.go:186-228 | Selection from a list of columns keeps exactly the enabled ones |
| Columns.SelectInOrder | tracker.go:186-228 | Selection keeps the columns in their original order |
| Columns.SelectedColumns | tracker.go:186-228 | The selected columns are exactly the enabled ones, each once, in the order name, since-start, duration, errors, track |
| Columns.LinkSelectsNothing | tracker.go:57 | The `withLink` flag changes no header and no row |
| TableRender.SelectedUnfold | tracker.go:186-204 | The selected columns are the five flag tests taken in source order |
| TableRender.HeadersAppendLabels | tracker.go:186-204 | The five conditional appends add the label of every selected column |
| TableRender.RowAppendsCells | tracker.go:206-228 | The five conditional appends add the cell of every selected column |
| TableRender.CreateHeaders | tracker.go:186-204 | The argument slice followed by the label of every enabled column, in the fixed order |
| TableRender.CreateRow | tracker.go:206-228 | The cell of every enabled column, in the same fixed order; the errors cell is `""` for nil and the message otherwise |
| TableRender.HeaderRowAligned | tracker.go:186-228 | The header and any row have the same length, and each column's label sits above that column's cell |
| TableRender.ErrorCell | tracker.go:186-228 | With errors on, the errors column is last, or next to last when the track is on; its cell is the error's text: empty for nil, the message otherwise |
| TableRender.EmptyErrorRendersAsNil | tracker.go:157-159 | Replacing a nil error by an empty-message error leaves the row unchanged, so the unused assignment in the loop is harmless |
| TableRender.Step | tracker.go:161 | The step is the longest duration over a positive divider, and not positive for a negative divider |
| TableRender.GoDiv | tracker.go:161 | For the non-negative dividend the step divides: the floor quotient for a positive divisor, and minus the quotient by its magnitude for a negative one |
| TableRender.GoDivTruncates | tracker.go:161 | Go's law for `/`: the remainder `a - q*b` has the sign of the dividend and is smaller in magnitude than the divisor |
| TableRender.GoDivUnique | tracker.go:161 | That law determines the quotient: any quotient that satisfies it is the one the model computes |
| TableRender.StepPositiveIff | tracker.go:161-165 | With a positive longest duration, the step is positive exactly when the divider is between 1 and that duration |
| TableRender.RenderableIff | tracker.go:148-173 | Exactly which inputs the modelled render admits, in both directions: those on which it never divides by zero and every track loop with an unbounded counter ends |
| TableRender.TrackLengthIsCeiling | tracker.go:163-165 | For a positive duration the mark count is the least multiple of the step that reaches it, and the only such count |
| TableRender.TrackLengthMonotone | tracker.go:163-165 | A longer duration never gets a shorter track |
| TableRender.Stars | tracker.go:164 | `n` characters, all `*` |
| TableRender.TimeLine | tracker.go:161-165 | The loop builds `""` for a non-positive duration; otherwise `*` marks whose count `n` satisfies `(n-1)*step < Dur <= n*step` |
| TableRender.RowsUpToIndex | tracker.go:154-170 | Row `r` of the rendered prefix is checkpoint `r`'s row |
| TableRender.RenderRow | tracker.go:155-167 | One loop pass yields the row of `createRow` for that checkpoint with its track |
| TableRender.RenderRows | tracker.go:154-170 | One row per checkpoint, in trace order |
| TableRender.RowsCells | tracker.go:148-170 | The header labels the selected columns, and every row cell is its column's content for its checkpoint |
| TableRender.Render | tracker.go:148-173 | The header row lists the selected labels and every row has one cell per header; under each label sits that column's content for the checkpoint |
| Tracker.New | tracker.go:64-77 | Exactly one checkpoint: the given name and clock reading, zero durations and a nil error; a non-positive `callerSkip` is excluded because the stack walk at tracker.go:270-272 panics on it |
| Tracker.Update | tracker.go:81-101 | On an empty trace, exactly the fixed error and the track unchanged. Otherwise nil, with exactly one checkpoint appended and the earlier ones unchanged. The new checkpoint holds the name, the first clock reading as its start, the time from the last checkpoint to the second reading, the time from the first checkpoint to the third reading, and the error |
| Tracker.UpdateStatistics | tracker.go:81-138 | After a successful `Update`, the maximum rises to the new `Dur` only when that is larger; the minimum is the new `Dur` on the first update or when that is smaller |
| Tracker.Configure | tracker.go:230-233 | The track now points to fresh all-false options, which are returned; the trace is untouched |
| Tracker.ConfigureChain | tracker.go:230-258 | After `Configure` and a setter chain, the track selects exactly the named columns, in the fixed order |
| Tracker.UpdateRecords | tracker.go:81-101 | `Update` on a trace that records some calls succeeds, and the result records those calls followed by its own |
| Tracker.RunFromNew | tracker.go:64-101 | After `New` and any run of `Update` calls: the first checkpoint, then one checkpoint per call with that call's name, start and error, its `Dur` measured from the previous checkpoint's start to the call's second reading, and its `StartDif` from the first start to the call's third reading |
| Tracker.RecordedStartsForward | tracker.go:86-94 | With a monotonic clock, start times never decrease between neighbouring checkpoints |
| Tracker.StartsOrdered | tracker.go:86-94 | Start times that never decrease between neighbours never decrease between any two checkpoints |
| Tracker.ForwardClockBounds | tracker.go:86-94 | With a monotonic clock: `Dur` is at least the gap between the two starts and never negative; `StartDif` is at least the time from the first start, at least `Dur`, and never decreases along the trace |
| Tracker.NewStatistics | tracker.go:64-77 | A fresh trace has maximum and minimum duration 0 |

## Left out

- Name resolution through `runtime.Callers` (`trace(skip)`) is a foreign
  runtime call. The name is an argument.
- `time.Now` is not modelled: each clock reading is an argument.
- `Duration.String` is the argument `show` of the row functions. Go's
  duration formatting is not modelled.
- The `Loggable` printing, `info` and `SetMessageFormat` are not modelled.
  `SetMessageFormat` writes the package-wide `msgFormat`, but that value only
  affects what is printed, never the trace or the table.
- The table library (`tablewriter`) lays out and writes the cells. The model
  returns the header and the rows it would be handed.
- `JSONRender.Render` is JSON marshalling and I/O.
- `Track.Render` and `SetRenderer` dispatch through an interface.
  - A nil renderer is a nil-interface call and panics.
  - A nil `*Options` (rendering before `Configure`) dereferences nil in
    `createHeaders` and panics.
  - Neither panic is modelled.
- Tracker.ConfigureChain: setters called on an `*Options` after a second
  `Configure` act on the old object and no longer reach the track. Pointer
  identity is not modelled; only the chain that starts at the latest
  `Configure` is.
- TableRender.TimeLine: the loop counter `k` is an unbounded integer. In Go
  it is a 64-bit `int` whose `k += step` wraps around. With a positive step
  this matters only when a duration comes within one step of 2^63 ns (about
  292 years).
- TableRender.Render requires `Renderable`, which excludes three Go
  behaviours:
  - A zero divider panics on the division at tracker.go:161 as soon as
    there is a row.
  - A zero step (a divider whose magnitude exceeds the longest duration)
    never leaves the track loop of a row with a positive duration.
  - A negative step (a negative divider no larger in magnitude than the
    longest duration) leaves the loop only after `k` wraps past -2^63,
    after about 2^63/|step| marks; for short durations memory usually runs
    out first. The model's unbounded counter never wraps, so it does not
    follow this case.
- TableRender.Render treats `int(...)` at tracker.go:161 and 163 as the
  identity, which holds where Go's `int` is 64 bits wide. Where `int` is
  32 bits, any Duration above 2^31 ns (about 2.1 s) is truncated, which
  changes the step and the track and can make the step negative.
- TableRender.Render takes the divider as an integer. A nil `*RenderOptions`
  in `tbr.Options` panics at tracker.go:161 as soon as there is a row, and
  that panic is not modelled.
- Trace.MinDuration requires a non-empty trace, because Go's `m[1:]` panics
  on an empty one.

=== FILE: clock.dfy ===
/** Durations and instants as the tracker sees them.

    Go's `time.Duration` is a signed 64-bit count of nanoseconds. `Meta.Since`
    asks the clock for the time elapsed since a recorded instant; Go's time
    package clamps a difference that does not fit a Duration to the nearest
    representable value. The clock itself is not modelled: the current instant
    is always passed in as `now`.
 */
module Clock {

  const MinInt64: int := -0x8000_0000_0000_0000
  const MaxInt64: int := 0x7fff_ffff_ffff_ffff

  /** A Go `time.Duration`: nanoseconds in the int64 range. */
  type Duration = d: int | MinInt64 <= d <= MaxInt64

  /** A wall-clock reading in nanoseconds from an arbitrary origin. */
  type Instant = int

  /** The Duration from `start` to `now`, saturated to the int64 range. */
  function Elapsed(now: Instant, start: Instant): (d: Duration)
    ensures now >= start ==> d >= 0
    ensures now <= start ==> d <= 0
    ensures now - start > MaxInt64 ==> d == MaxInt64
    ensures now - start < MinInt64 ==> d == MinInt64
  {
    if now - start > MaxInt64 then MaxInt64
    else if now - start < MinInt64 then MinInt64
    else now - start
  }

  /** Elapsed is exact whenever the true difference fits in a Duration. */
  lemma ElapsedExact(now: Instant, start: Instant)
    requires MinInt64 <= now - start <= MaxInt64
    ensures Elapsed(now, start) == now - start
  {
  }

  /** A later reading never yields a shorter elapsed time from the same start. */
  lemma ElapsedMonotone(now1: Instant, now2: Instant, start: Instant)
    requires now1 <= now2
    ensures Elapsed(now1, start) <= Elapsed(now2, start)
  {
  }

  /** Measured from a later start, the same reading yields no longer an elapsed time. */
  lemma ElapsedAntitone(now: Instant, start1: Instant, start2: Instant)
    requires start1 <= start2
    ensures Elapsed(now, start2) <= Elapsed(now, start1)
  {
  }
}

=== FILE: columns.dfy ===
/** Column selection: the `Options` flags, the fluent setters that switch them
    on, and the fixed order in which enabled columns appear.
 */
module Columns {

  /** The six flags of `Options`. `withLink` is declared but nothing sets or
      reads it. */
  datatype Options = Options(
    withErrors: bool,
    withName: bool,
    withSinceStart: bool,
    withDuration: bool,
    withTrack: bool,
    withLink: bool)

  /** The five table columns, declared in the order they are emitted. */
  datatype Column = NameCol | SinceStartCol | DurationCol | ErrorsCol | TrackCol

  /** A flag of `Options`: one per column, plus the unused link flag. */
  datatype Flag = ColumnFlag(col: Column) | LinkFlag

  /** The columns in output order. */
  const AllColumns: seq<Column> := [NameCol, SinceStartCol, DurationCol, ErrorsCol, TrackCol]

  /** Position of a column in the output order. */
  function Rank(c: Column): (rank: nat)
  {
    match c
    case NameCol => 0
    case SinceStartCol => 1
    case DurationCol => 2
    case ErrorsCol => 3
    case TrackCol => 4
  }

  /** Whether a flag is set in `o`. */
  predicate Has(o: Options, f: Flag)
  {
    match f
    case ColumnFlag(NameCol) => o.withName
    case ColumnFlag(SinceStartCol) => o.withSinceStart
    case ColumnFlag(DurationCol) => o.withDuration
    case ColumnFlag(ErrorsCol) => o.withErrors
    case ColumnFlag(TrackCol) => o.withTrack
    case LinkFlag => o.withLink
  }

  /** Whether column `c` is switched on in `o`. */
  predicate Enabled(o: Options, c: Column)
  {
    Has(o, ColumnFlag(c))
  }

  /** The options a fresh `new(Options)` holds. */
  function NoOptions(): (o: Options)
    ensures forall f :: !Has(o, f)
  {
    Options(false, false, false, false, false, false)
  }

  /** `WithErrors`: turns the errors column on and nothing else. */
  function WithErrors(o: Options): (r: Options)
    ensures forall f :: Has(r, f) == (f == ColumnFlag(ErrorsCol) || Has(o, f))
  {
    o.(withErrors := true)
  }

  /** `WithName`: turns the function-name column on and nothing else. */
  function WithName(o: Options): (r: Options)
    ensures forall f :: Has(r, f) == (f == ColumnFlag(NameCol) || Has(o, f))
  {
    o.(withName := true)
  }

  /** `WithSinceStart`: turns the since-start column on and nothing else. */
  function WithSinceStart(o: Options): (r: Options)
    ensures forall f :: Has(r, f) == (f == ColumnFlag(SinceStartCol) || Has(o, f))
  {
    o.(withSinceStart := true)
  }

  /** `WithDuration`: turns the duration column on and nothing else. */
  function WithDuration(o: Options): (r: Options)
    ensures forall f :: Has(r, f) == (f == ColumnFlag(DurationCol) || Has(o, f))
  {
    o.(withDuration := true)
  }

  /** `WithTrack`: turns the visual-track column on and nothing else. */
  function WithTrack(o: Options): (r: Options)
    ensures forall f :: Has(r, f) == (f == ColumnFlag(TrackCol) || Has(o, f))
  {
    o.(withTrack := true)
  }

  /** The setter belonging to each column. */
  function Enable(o: Options, c: Column): (r: Options)
    ensures forall d :: Enabled(r, d) == (d == c || Enabled(o, d))
    ensures r.withLink == o.withLink
  {
    match c
    case NameCol => WithName(o)
    case SinceStartCol => WithSinceStart(o)
    case DurationCol => WithDuration(o)
    case ErrorsCol => WithErrors(o)
    case TrackCol => WithTrack(o)
  }

  /** A fluent chain of setters, `o.WithX().WithY()...`, one per entry of `cs`
      in call order: it switches on exactly the listed columns. */
  function EnableAll(o: Options, cs: seq<Column>): (r: Options)
    ensures forall c :: Enabled(r, c) == (Enabled(o, c) || c in cs)
    ensures r.withLink == o.withLink
  {
    if cs == [] then o
    else
      var r := EnableAll(o, cs[..|cs| - 1]);
      assert forall c :: c in cs <==> c in cs[..|cs| - 1] || c == cs[|cs| - 1];
      Enable(r, cs[|cs| - 1])
  }

  /** Options are determined by their flags. */
  lemma FlagsDetermineOptions(a: Options, b: Options)
    requires forall f :: Has(a, f) == Has(b, f)
    ensures a == b
  {
    assert Has(a, ColumnFlag(NameCol)) == Has(b, ColumnFlag(NameCol));
    assert Has(a, ColumnFlag(SinceStartCol)) == Has(b, ColumnFlag(SinceStartCol));
    assert Has(a, ColumnFlag(DurationCol)) == Has(b, ColumnFlag(DurationCol));
    assert Has(a, ColumnFlag(ErrorsCol)) == Has(b, ColumnFlag(ErrorsCol));
    assert Has(a, ColumnFlag(TrackCol)) == Has(b, ColumnFlag(TrackCol));
    assert Has(a, LinkFlag) == Has(b, LinkFlag);
  }

  /** Calling a setter twice is the same as calling it once. */
  lemma {:induction false} SetterIdempotent(o: Options, c: Column)
    ensures Enable(Enable(o, c), c) == Enable(o, c)
  {
  }

  /** The order of a fluent chain of setters does not matter. */
  lemma {:induction false} SettersCommute(o: Options, c: Column, d: Column)
    ensures Enable(Enable(o, c), d) == Enable(Enable(o, d), c)
  {
  }

  /** The enabled columns among `cs`, keeping their order. */
  function Select(o: Options, cs: seq<Column>): (r: seq<Column>)
  {
    if cs == [] then []
    else (if Enabled(o, cs[0]) then [cs[0]] else []) + Select(o, cs[1..])
  }

  /** The columns `o` selects, in output order. */
  function Selected(o: Options): (cs: seq<Column>)
  {
    Select(o, AllColumns)
  }

  /** Selection keeps exactly the enabled columns. */
  lemma {:induction false} SelectMembers(o: Options, cs: seq<Column>)
    ensures forall c :: c in Select(o, cs) <==> c in cs && Enabled(o, c)
  {
    if cs != [] {
      SelectMembers(o, cs[1..]);
      assert forall c :: c in cs <==> c == cs[0] || c in cs[1..];
    }
  }

  /** Strictly increasing in output order. */
  ghost predicate InOrder(cs: seq<Column>)
  {
    forall i, j :: 0 <= i < j < |cs| ==> Rank(cs[i]) < Rank(cs[j])
  }

  /** Selection keeps an ordered list ordered. */
  lemma {:induction false} SelectInOrder(o: Options, cs: seq<Column>)
    requires InOrder(cs)
    ensures InOrder(Select(o, cs))
  {
    if cs != [] {
      assert InOrder(cs[1..]);
      SelectInOrder(o, cs[1..]);
      SelectMembers(o, cs[1..]);
      var rest := Select(o, cs[1..]);
      forall c | c in rest
        ensures Rank(cs[0]) < Rank(c)
      {
        var k :| 0 <= k < |cs[1..]| && cs[1..][k] == c;
        assert cs[k + 1] == c;
      }
    }
  }

  /** The selected columns are exactly the enabled ones, each once, in the
      fixed order name, since-start, duration, errors, track. */
  lemma SelectedColumns(o: Options)
    ensures forall c :: c in Selected(o) <==> Enabled(o, c)
    ensures InOrder(Selected(o))
  {
    SelectInOrder(o, AllColumns);
    SelectMembers(o, AllColumns);
    forall c ensures c in AllColumns {
      match c
      case NameCol => assert AllColumns[0] == c;
      case SinceStartCol => assert AllColumns[1] == c;
      case DurationCol => assert AllColumns[2] == c;
      case ErrorsCol => assert AllColumns[3] == c;
      case TrackCol => assert AllColumns[4] == c;
    }
  }

  /** Two options that enable the same columns select the same columns. */
  lemma {:induction false} SelectSameEnabled(o: Options, p: Options, cs: seq<Column>)
    requires forall c :: Enabled(o, c) == Enabled(p, c)
    ensures Select(o, cs) == Select(p, cs)
  {
    if cs != [] {
      SelectSameEnabled(o, p, cs[1..]);
    }
  }

  /** Two setter chains naming the same columns, in any order and with any
      repetitions, leave the same options. */
  lemma ChainOrderIrrelevant(o: Options, cs: seq<Column>, ds: seq<Column>)
    requires forall c :: c in cs <==> c in ds
    ensures EnableAll(o, cs) == EnableAll(o, ds)
  {
    var a, b := EnableAll(o, cs), EnableAll(o, ds);
    forall f
      ensures Has(a, f) == Has(b, f)
    {
      if f.ColumnFlag? {
        assert Enabled(a, f.col) == Enabled(b, f.col);
      }
    }
    FlagsDetermineOptions(a, b);
  }

  /** The link flag selects nothing. */
  lemma LinkSelectsNothing(o: Options, b: bool)
    ensures Selected(o.(withLink := b)) == Selected(o)
  {
    SelectSameEnabled(o.(withLink := b), o, AllColumns);
  }
}

=== FILE: table.dfy ===
/** The table renderer: the header row, one data row per checkpoint, and the
    visual track of `*` characters. Laying the cells out with the table library
    and writing them to the output stream is not modelled; `Render` returns the
    cells the library is handed.
 */
module TableRender {
  import opened Clock
  import opened Trace
  import opened Columns

  /** The header label of each column. */
  function Label(c: Column): (l: string)
  {
    match c
    case NameCol => "func.name"
    case SinceStartCol => "since.start"
    case DurationCol => "duration"
    case ErrorsCol => "errors"
    case TrackCol => "track"
  }

  /** The text of the errors cell: empty for a nil error, otherwise the
      error's message. */
  function ErrorText(e: GoError): (text: string)
  {
    match e
    case Nil => ""
    case Error(message) => message
  }

  /** The cell of column `c` for checkpoint `meta`. Durations are formatted by
      `show`, standing for Go's `Duration.String`. */
  function Cell(c: Column, meta: Meta, timeLine: string, show: Duration -> string): (cell: string)
  {
    match c
    case NameCol => meta.name
    case SinceStartCol => show(meta.startDif)
    case DurationCol => show(meta.dur)
    case ErrorsCol => ErrorText(meta.err)
    case TrackCol => timeLine
  }

  /** The run holding just `c` when `b` holds, and nothing otherwise. */
  function Opt(b: bool, c: Column): (cs: seq<Column>)
  {
    if b then [c] else []
  }

  /** Selecting from a run that starts with `c`. */
  lemma SelectCons(o: Options, c: Column, rest: seq<Column>)
    ensures Select(o, [c] + rest) == Opt(Enabled(o, c), c) + Select(o, rest)
  {
  }

  /** `Selected(o)` spelled out flag by flag. */
  lemma SelectedUnfold(o: Options)
    ensures Selected(o)
         == Opt(o.withName, NameCol)
          + Opt(o.withSinceStart, SinceStartCol)
          + Opt(o.withDuration, DurationCol)
          + Opt(o.withErrors, ErrorsCol)
          + Opt(o.withTrack, TrackCol)
  {
    SelectCons(o, TrackCol, []);
    SelectCons(o, ErrorsCol, [TrackCol]);
    SelectCons(o, DurationCol, [ErrorsCol, TrackCol]);
    SelectCons(o, SinceStartCol, [DurationCol, ErrorsCol, TrackCol]);
    SelectCons(o, NameCol, [SinceStartCol, DurationCol, ErrorsCol, TrackCol]);
    assert [NameCol] + [SinceStartCol, DurationCol, ErrorsCol, TrackCol] == AllColumns;
    assert [SinceStartCol] + [DurationCol, ErrorsCol, TrackCol] == [SinceStartCol, DurationCol, ErrorsCol, TrackCol];
    assert [DurationCol] + [ErrorsCol, TrackCol] == [DurationCol, ErrorsCol, TrackCol];
    assert [ErrorsCol] + [TrackCol] == [ErrorsCol, TrackCol];
    assert [TrackCol] + [] == [TrackCol];
    var a := Opt(o.withName, NameCol);
    var b := Opt(o.withSinceStart, SinceStartCol);
    var c := Opt(o.withDuration, DurationCol);
    var d := Opt(o.withErrors, ErrorsCol);
    var e := Opt(o.withTrack, TrackCol);
    Associative(a, b, c + (d + e));
    Associative(a + b, c, d + e);
    Associative(a + b + c, d, e);
  }

  /** Concatenation regroups freely. */
  lemma Associative<T>(x: seq<T>, y: seq<T>, z: seq<T>)
    ensures x + (y + z) == x + y + z
  {
  }

  /** `s` with `x` appended when `b` holds: one `if ... { s = append(s, x) }`. */
  function AppendIf(s: seq<string>, b: bool, x: string): (r: seq<string>)
  {
    if b then s + [x] else s
  }

  /** The labels of a run of columns. */
  function Labels(cs: seq<Column>): (ls: seq<string>)
  {
    seq(|cs|, j requires 0 <= j < |cs| => Label(cs[j]))
  }

  /** The cells of one checkpoint under a run of columns. */
  function Cells(cs: seq<Column>, meta: Meta, timeLine: string, show: Duration -> string): (cells: seq<string>)
  {
    seq(|cs|, j requires 0 <= j < |cs| => Cell(cs[j], meta, timeLine, show))
  }

  /** One conditional append of a header label. */
  lemma AppendIfLabel(s: seq<string>, b: bool, c: Column)
    ensures AppendIf(s, b, Label(c)) == s + Labels(Opt(b, c))
  {
  }

  /** One conditional append of a row cell. */
  lemma AppendIfCell(s: seq<string>, b: bool, c: Column, meta: Meta, timeLine: string, show: Duration -> string)
    ensures AppendIf(s, b, Cell(c, meta, timeLine, show)) == s + Cells(Opt(b, c), meta, timeLine, show)
  {
  }

  /** Labels distribute over concatenation. */
  lemma LabelsAppend(x: seq<Column>, y: seq<Column>)
    ensures Labels(x + y) == Labels(x) + Labels(y)
  {
  }

  /** Cells distribute over concatenation. */
  lemma CellsAppend(x: seq<Column>, y: seq<Column>, meta: Meta, timeLine: string, show: Duration -> string)
    ensures Cells(x + y, meta, timeLine, show) == Cells(x, meta, timeLine, show) + Cells(y, meta, timeLine, show)
  {
  }

  /** The five appends of `createHeaders` add the labels of the selected
      columns. */
  lemma HeadersAppendLabels(s: seq<string>, o: Options)
    ensures AppendIf(AppendIf(AppendIf(AppendIf(AppendIf(s,
              o.withName, "func.name"),
              o.withSinceStart, "since.start"),
              o.withDuration, "duration"),
              o.withErrors, "errors"),
              o.withTrack, "track")
         == s + Labels(Selected(o))
  {
    var s1 := AppendIf(s, o.withName, "func.name");
    var s2 := AppendIf(s1, o.withSinceStart, "since.start");
    var s3 := AppendIf(s2, o.withDuration, "duration");
    var s4 := AppendIf(s3, o.withErrors, "errors");
    var a := Opt(o.withName, NameCol);
    var b := Opt(o.withSinceStart, SinceStartCol);
    var c := Opt(o.withDuration, DurationCol);
    var d := Opt(o.withErrors, ErrorsCol);
    var e := Opt(o.withTrack, TrackCol);
    SelectedUnfold(o);
    AppendIfLabel(s, o.withName, NameCol);
    AppendIfLabel(s1, o.withSinceStart, SinceStartCol);
    AppendIfLabel(s2, o.withDuration, DurationCol);
    AppendIfLabel(s3, o.withErrors, ErrorsCol);
    AppendIfLabel(s4, o.withTrack, TrackCol);
    LabelsAppend(a, b);
    LabelsAppend(a + b, c);
    LabelsAppend(a + b + c, d);
    LabelsAppend(a + b + c + d, e);
    var la, lb, lc, ld, le := Labels(a), Labels(b), Labels(c), Labels(d), Labels(e);
    Associative(s, la, lb);
    Associative(s, la + lb, lc);
    Associative(s, la + lb + lc, ld);
    Associative(s, la + lb + lc + ld, le);
  }

  /** The five appends of `createRow` add the cells of the selected columns. */
  lemma RowAppendsCells(o: Options, meta: Meta, timeLine: string, show: Duration -> string)
    ensures AppendIf(AppendIf(AppendIf(AppendIf(AppendIf([],
              o.withName, meta.name),
              o.withSinceStart, show(meta.startDif)),
              o.withDuration, show(meta.dur)),
              o.withErrors, if meta.err == Nil then "" else meta.err.message),
              o.withTrack, timeLine)
         == Cells(Selected(o), meta, timeLine, show)
  {
    var s1 := AppendIf([], o.withName, meta.name);
    var s2 := AppendIf(s1, o.withSinceStart, show(meta.startDif));
    var s3 := AppendIf(s2, o.withDuration, show(meta.dur));
    var s4 := AppendIf(s3, o.withErrors, if meta.err == Nil then "" else meta.err.message);
    var a := Opt(o.withName, NameCol);
    var b := Opt(o.withSinceStart, SinceStartCol);
    var c := Opt(o.withDuration, DurationCol);
    var d := Opt(o.withErrors, ErrorsCol);
    var e := Opt(o.withTrack, TrackCol);
    SelectedUnfold(o);
    assert Cell(ErrorsCol, meta, timeLine, show) == if meta.err == Nil then "" else meta.err.message;
    AppendIfCell([], o.withName, NameCol, meta, timeLine, show);
    AppendIfCell(s1, o.withSinceStart, SinceStartCol, meta, timeLine, show);
    AppendIfCell(s2, o.withDuration, DurationCol, meta, timeLine, show);
    AppendIfCell(s3, o.withErrors, ErrorsCol, meta, timeLine, show);
    AppendIfCell(s4, o.withTrack, TrackCol, meta, timeLine, show);
    CellsAppend(a, b, meta, timeLine, show);
    CellsAppend(a + b, c, meta, timeLine, show);
    CellsAppend(a + b + c, d, meta, timeLine, show);
    CellsAppend(a + b + c + d, e, meta, timeLine, show);
    assert [] + Cells(a, meta, timeLine, show) == Cells(a, meta, timeLine, show);
  }

  /** `createHeaders`: appends to `s` the label of every enabled column, in
      the order name, since-start, duration, errors, track. */
  function CreateHeaders(s: seq<string>, o: Options): (r: seq<string>)
    ensures r == s + Labels(Selected(o))
  {
    HeadersAppendLabels(s, o);
    AppendIf(AppendIf(AppendIf(AppendIf(AppendIf(s,
      o.withName, "func.name"),
      o.withSinceStart, "since.start"),
      o.withDuration, "duration"),
      o.withErrors, "errors"),
      o.withTrack, "track")
  }

  /** `createRow`: one cell per enabled column, in the same order; the errors
      cell is empty for a nil error and the error's text otherwise. */
  function CreateRow(o: Options, meta: Meta, timeLine: string, show: Duration -> string): (r: seq<string>)
    ensures r == Cells(Selected(o), meta, timeLine, show)
  {
    RowAppendsCells(o, meta, timeLine, show);
    AppendIf(AppendIf(AppendIf(AppendIf(AppendIf([],
      o.withName, meta.name),
      o.withSinceStart, show(meta.startDif)),
      o.withDuration, show(meta.dur)),
      o.withErrors, if meta.err == Nil then "" else meta.err.message),
      o.withTrack, timeLine)
  }

  /** Header and row line up: the same number of cells, and under the label
      of each column sits that column's cell. */
  lemma HeaderRowAligned(o: Options, meta: Meta, timeLine: string, show: Duration -> string)
    ensures |CreateRow(o, meta, timeLine, show)| == |CreateHeaders([], o)|
    ensures forall j :: 0 <= j < |CreateHeaders([], o)| ==>
      && CreateHeaders([], o)[j] == Label(Selected(o)[j])
      && CreateRow(o, meta, timeLine, show)[j] == Cell(Selected(o)[j], meta, timeLine, show)
  {
    var h := CreateHeaders([], o);
    assert forall j :: 0 <= j < |h| ==> h[0 + j] == h[j];
  }

  /** The errors cell is empty exactly for a nil error, and otherwise is the
      error's message. */
  lemma ErrorCell(o: Options, meta: Meta, timeLine: string, show: Duration -> string)
    requires o.withErrors
    ensures var j := |CreateHeaders([], o)| - (if o.withTrack then 2 else 1);
      && 0 <= j
      && CreateHeaders([], o)[j] == "errors"
      && CreateRow(o, meta, timeLine, show)[j] == ErrorText(meta.err)
  {
    SelectedUnfold(o);
    var h := CreateHeaders([], o);
    var j := |h| - (if o.withTrack then 2 else 1);
    assert Selected(o)[j] == ErrorsCol;
    assert h[0 + j] == Label(Selected(o)[j]);
  }

  /** Replacing a nil error by an empty-message error, as the dead assignment
      in the render loop would, leaves every row unchanged. */
  lemma EmptyErrorRendersAsNil(o: Options, meta: Meta, timeLine: string, show: Duration -> string)
    requires meta.err.Nil?
    ensures CreateRow(o, meta.(err := Error("")), timeLine, show) == CreateRow(o, meta, timeLine, show)
  {
  }

  /** Go's integer division, which truncates toward zero. */
  function GoDiv(a: int, b: int): (q: int)
    requires b != 0
    ensures a >= 0 && b > 0 ==> q == a / b
    ensures a >= 0 && b < 0 ==> q <= 0
    ensures a >= 0 && b < 0 ==> q == -(a / -b)
  {
    if b > 0 then
      if a >= 0 then a / b else -((-a) / b)
    else
      if a >= 0 then -(a / -b) else (-a) / (-b)
  }

  /** Go's law for `/` and `%`: the remainder `a - q * b` has the sign of
      `a` and is smaller in magnitude than `b`. It fixes the quotient. */
  lemma GoDivTruncates(a: int, b: int)
    requires b != 0
    ensures a >= 0 ==> 0 <= a - GoDiv(a, b) * b < (if b > 0 then b else -b)
    ensures a < 0 ==> -(if b > 0 then b else -b) < a - GoDiv(a, b) * b <= 0
  {
    var q := GoDiv(a, b);
    if b > 0 && a >= 0 {
      assert a == (a / b) * b + a % b;
    } else if b > 0 {
      assert -a == ((-a) / b) * b + (-a) % b;
      assert q * b == -(((-a) / b) * b);
    } else if a >= 0 {
      assert a == (a / -b) * -b + a % -b;
      assert q * b == (a / -b) * -b;
    } else {
      assert -a == ((-a) / -b) * -b + (-a) % -b;
      assert q * b == -(((-a) / -b) * -b);
    }
  }

  /** The law fixes the quotient: any `q` whose remainder has the sign of `a`
      and is smaller in magnitude than `b` is `GoDiv(a, b)`. */
  lemma GoDivUnique(a: int, b: int, q: int)
    requires b != 0
    requires a >= 0 ==> 0 <= a - q * b < (if b > 0 then b else -b)
    requires a < 0 ==> -(if b > 0 then b else -b) < a - q * b <= 0
    ensures q == GoDiv(a, b)
  {
    GoDivTruncates(a, b);
    var p := GoDiv(a, b);
    var m := if b > 0 then b else -b;
    var k := p - q;
    assert k * b == (a - q * b) - (a - p * b);
    assert k * b == (if b > 0 then k * m else -(k * m));
    if k >= 1 {
      MulMonotone(1, k, m);
    } else if k <= -1 {
      MulMonotone(k, -1, m);
    }
  }

  /** The distance between two `*` marks: the longest duration over `divider`. */
  function Step(data: MetaData, divider: int): (s: int)
    requires divider != 0
    ensures divider > 0 ==> s == MaxDuration(data) / divider
    ensures divider < 0 ==> s <= 0
  {
    GoDiv(MaxDuration(data), divider)
  }

  /** `Render` divides by `divider` only when there is a row. With an
      unbounded loop counter, the track loop of a row ends only when the row's
      duration is not positive or the step is positive. A zero step never ends
      the loop; a negative step ends it in Go only once the 64-bit counter
      wraps past its minimum, which the model does not follow. */
  predicate Renderable(data: MetaData, divider: int)
  {
    |data| == 0 || (divider != 0 && forall i :: 0 <= i < |data| && data[i].dur > 0 ==> Step(data, divider) > 0)
  }

  /** With a positive longest duration, the step is positive exactly when the
      divider lies between 1 and that duration. */
  lemma StepPositiveIff(max: int, divider: int)
    requires max > 0 && divider != 0
    ensures GoDiv(max, divider) > 0 <==> 0 < divider <= max
  {
    if divider > 0 {
      var q := max / divider;
      assert max == q * divider + max % divider;
      if max >= divider && q <= 0 {
        MulMonotone(q, 0, divider);
      }
      if max < divider && q >= 1 {
        MulMonotone(1, q, divider);
      }
    }
  }

  /** When the modelled `Render` runs without a division by zero and with
      every track loop ending before its counter wraps: an empty trace, or a
      non-zero divider with either no positive duration or a divider between 1
      and the longest duration. */
  lemma RenderableIff(data: MetaData, divider: int)
    ensures Renderable(data, divider) <==>
      (|data| == 0
       || (divider != 0
           && ((forall i :: 0 <= i < |data| ==> data[i].dur <= 0) || 0 < divider <= MaxDuration(data))))
  {
    if |data| > 0 && divider != 0 && exists i :: 0 <= i < |data| && data[i].dur > 0 {
      var i :| 0 <= i < |data| && data[i].dur > 0;
      StepPositiveIff(MaxDuration(data), divider);
    }
  }

  /** Number of `*` marks for duration `dur`: none when `dur` is not positive,
      otherwise `dur / step` rounded up. */
  function TrackLength(dur: int, step: int): (n: nat)
    requires dur > 0 ==> step > 0
  {
    if dur <= 0 then 0 else (dur + step - 1) / step
  }

  /** `n` marks cover `dur` with steps of `step` and one step fewer does not. */
  ghost predicate Covers(n: int, dur: int, step: int)
  {
    (n - 1) * step < dur <= n * step
  }

  /** Multiplying by a positive step keeps the order. */
  lemma MulMonotone(a: int, b: int, step: int)
    requires a <= b && step > 0
    ensures a * step <= b * step
  {
  }

  /** For a positive duration the track length is the least multiple count of
      `step` that reaches `dur`, and it is the only count that does. */
  lemma TrackLengthIsCeiling(dur: int, step: int, n: int)
    requires dur > 0 && step > 0
    ensures Covers(TrackLength(dur, step), dur, step)
    ensures Covers(n, dur, step) ==> n == TrackLength(dur, step)
  {
    var t := TrackLength(dur, step);
    var q := (dur + step - 1) / step;
    var r := (dur + step - 1) % step;
    assert dur + step - 1 == q * step + r && 0 <= r < step;
    assert t * step == dur + step - 1 - r;
    assert (t - 1) * step == t * step - step;
    if Covers(n, dur, step) && n != t {
      if n < t {
        MulMonotone(n, t - 1, step);
      } else {
        MulMonotone(t, n - 1, step);
      }
    }
  }

  /** A longer duration never gets a shorter track. */
  lemma TrackLengthMonotone(dur1: int, dur2: int, step: int)
    requires dur1 <= dur2 && step > 0
    ensures TrackLength(dur1, step) <= TrackLength(dur2, step)
  {
    if dur1 > 0 {
      var n1 := TrackLength(dur1, step);
      var n2 := TrackLength(dur2, step);
      TrackLengthIsCeiling(dur1, step, n1);
      TrackLengthIsCeiling(dur2, step, n2);
      if n2 < n1 {
        MulMonotone(n2, n1 - 1, step);
        assert false;
      }
    }
  }

  /** `*` repeated `n` times. */
  function Stars(n: nat): (r: string)
    ensures |r| == n
    ensures forall i :: 0 <= i < n ==> r[i] == '*'
  {
    if n == 0 then "" else Stars(n - 1) + "*"
  }

  /** The track loop of `Render`: starting at 0, `k` advances by `step` and a
      `*` is added while `k` is below the duration. */
  method TimeLine(dur: int, step: int) returns (line: string)
    requires dur > 0 ==> step > 0
    ensures dur <= 0 ==> line == ""
    ensures dur > 0 ==> Covers(|line|, dur, step)
    ensures forall i :: 0 <= i < |line| ==> line[i] == '*'
    ensures line == Stars(TrackLength(dur, step))
  {
    line := "";
    var k := 0;
    while k < dur
      invariant k == |line| * step
      invariant dur <= 0 ==> k == 0
      invariant |line| > 0 ==> (|line| - 1) * step < dur
      invariant line == Stars(|line|)
      decreases dur - k
    {
      ghost var n := |line|;
      assert (n + 1) * step == n * step + step;
      line := line + "*";
      k := k + step;
    }
    if dur > 0 {
      TrackLengthIsCeiling(dur, step, |line|);
    }
  }

  /** The track cell of row `r`: `*` repeated once per step of
      `MaxDuration / divider` needed to reach the row's duration. */
  function TrackOf(data: MetaData, divider: int, r: int): (line: string)
    requires Renderable(data, divider) && 0 <= r < |data|
  {
    Stars(TrackLength(data[r].dur, Step(data, divider)))
  }

  /** The row `createRow` builds for checkpoint `r`. */
  function RowOf(data: MetaData, o: Options, divider: int, show: Duration -> string, r: int): (row: seq<string>)
    requires Renderable(data, divider) && 0 <= r < |data|
  {
    CreateRow(o, data[r], TrackOf(data, divider, r), show)
  }

  /** `f(0)`, ..., `f(n - 1)`, built by appending one value at a time. */
  function Tabulate<T>(f: nat --> T, n: nat): (s: seq<T>)
    requires forall r: nat :: r < n ==> f.requires(r)
    ensures |s| == n
  {
    if n == 0 then [] else Tabulate(f, n - 1) + [f(n - 1)]
  }

  /** Entry `r` of a tabulation is the value at `r`. */
  lemma {:induction false} TabulateAt<T>(f: nat --> T, n: nat, r: nat)
    requires forall k: nat :: k < n ==> f.requires(k)
    requires r < n
    ensures Tabulate(f, n)[r] == f(r)
  {
    if r < n - 1 {
      TabulateAt(f, n - 1, r);
    }
  }

  /** The rows of the first `n` checkpoints. */
  function RowsUpTo(data: MetaData, o: Options, divider: int, show: Duration -> string, n: nat): (rows: seq<seq<string>>)
    requires Renderable(data, divider) && n <= |data|
    ensures |rows| == n
  {
    Tabulate((r: nat) requires r < |data| => RowOf(data, o, divider, show, r), n)
  }

  /** Row `r` of the prefix is the row of checkpoint `r`. */
  lemma RowsUpToIndex(data: MetaData, o: Options, divider: int, show: Duration -> string, n: nat)
    requires Renderable(data, divider) && n <= |data|
    ensures |RowsUpTo(data, o, divider, show, n)| == n
    ensures forall r :: 0 <= r < n ==> RowsUpTo(data, o, divider, show, n)[r] == RowOf(data, o, divider, show, r)
  {
    forall r | 0 <= r < n
      ensures RowsUpTo(data, o, divider, show, n)[r] == RowOf(data, o, divider, show, r)
    {
      TabulateAt((k: nat) requires k < |data| => RowOf(data, o, divider, show, k), n, r);
    }
  }

  /** Rows built with `createRow` and headers built with `createHeaders` give
      every cell its column's content. */
  lemma RowsCells(data: MetaData, o: Options, divider: int, show: Duration -> string,
                  headers: seq<string>, rows: seq<seq<string>>)
    requires Renderable(data, divider)
    requires headers == CreateHeaders([], o)
    requires |rows| == |data|
    requires forall r :: 0 <= r < |rows| ==> rows[r] == RowOf(data, o, divider, show, r)
    ensures |headers| == |Selected(o)|
    ensures forall j :: 0 <= j < |headers| ==> headers[j] == Label(Selected(o)[j])
    ensures forall i :: 0 <= i < |rows| ==> |rows[i]| == |headers|
    ensures forall i, j :: 0 <= i < |rows| && 0 <= j < |headers| ==>
      rows[i][j] == Cell(Selected(o)[j], data[i], TrackOf(data, divider, i), show)
  {
    assert headers == Labels(Selected(o)) by {
      assert [] + Labels(Selected(o)) == Labels(Selected(o));
    }
    forall i | 0 <= i < |rows|
      ensures |rows[i]| == |headers|
      ensures forall j :: 0 <= j < |headers| ==>
        rows[i][j] == Cell(Selected(o)[j], data[i], TrackOf(data, divider, i), show)
    {
      assert rows[i] == Cells(Selected(o), data[i], TrackOf(data, divider, i), show);
    }
  }

  /** One pass of the render loop: the step, the track of `*` marks, and the
      row handed to the table. */
  method RenderRow(data: MetaData, o: Options, divider: int, show: Duration -> string, i: int)
    returns (row: seq<string>)
    requires Renderable(data, divider) && 0 <= i < |data|
    ensures row == RowOf(data, o, divider, show, i)
  {
    var step := GoDiv(MaxDuration(data), divider);
    var timeLine := TimeLine(data[i].dur, step);
    row := CreateRow(o, data[i], timeLine, show);
  }

  /** The loop of `TableRender.Render`: one row per checkpoint, in trace order. */
  method RenderRows(data: MetaData, o: Options, divider: int, show: Duration -> string)
    returns (rows: seq<seq<string>>)
    requires Renderable(data, divider)
    ensures |rows| == |data|
    ensures forall r :: 0 <= r < |rows| ==> rows[r] == RowOf(data, o, divider, show, r)
  {
    rows := [];
    var i := 0;
    while i < |data|
      invariant 0 <= i <= |data|
      invariant rows == RowsUpTo(data, o, divider, show, i)
    {
      var row := RenderRow(data, o, divider, show, i);
      assert RowsUpTo(data, o, divider, show, i + 1) == rows + [row];
      rows := rows + [row];
      i := i + 1;
    }
    RowsUpToIndex(data, o, divider, show, |data|);
  }

  /** `TableRender.Render` without the table library: the header row and one row
      per checkpoint, in trace order, with the track column drawn with step
      `MaxDuration / divider`. */
  method Render(data: MetaData, o: Options, divider: int, show: Duration -> string)
    returns (headers: seq<string>, rows: seq<seq<string>>)
    requires Renderable(data, divider)
    ensures |headers| == |Selected(o)|
    ensures forall j :: 0 <= j < |headers| ==> headers[j] == Label(Selected(o)[j])
    ensures |rows| == |data|
    ensures forall i :: 0 <= i < |rows| ==> |rows[i]| == |headers|
    ensures forall i, j :: 0 <= i < |rows| && 0 <= j < |headers| ==>
      rows[i][j] == Cell(Selected(o)[j], data[i], TrackOf(data, divider, i), show)
  {
    headers := CreateHeaders([], o);
    rows := RenderRows(data, o, divider, show);
    RowsCells(data, o, divider, show, headers, rows);
  }
}

=== FILE: trace.dfy ===
/** The checkpoint trace: the `Meta` record, the `MetaData` sequence and the two
    statistics folded over it.
 */
module Trace {
  import opened Clock

  /** A Go `error` value: nil, or an error whose `Error()` text is `message`. */
  datatype GoError = Nil | Error(message: string)

  /** One checkpoint: who called, when, the time since the previous checkpoint
      (`dur`), the time since the first checkpoint (`startDif`) and the error the
      caller handed in. */
  datatype Meta = Meta(name: string, start: Instant, dur: Duration, startDif: Duration, err: GoError)

  /** The trace, in insertion order. */
  type MetaData = seq<Meta>

  /** `r` is what MaxDuration must return: the larger of 0 and every `dur`. */
  ghost predicate IsMaxDuration(m: MetaData, r: int)
  {
    && r >= 0
    && (forall i :: 0 <= i < |m| ==> m[i].dur <= r)
    && (r == 0 || exists i :: 0 <= i < |m| && m[i].dur == r)
  }

  /** `r` is the smallest `dur` of a non-empty run of checkpoints. */
  ghost predicate IsLeastDuration(s: MetaData, r: int)
  {
    && (forall i :: 0 <= i < |s| ==> r <= s[i].dur)
    && (exists i :: 0 <= i < |s| && s[i].dur == r)
  }

  /** The loop of `MaxDuration`: a running maximum seeded with the zero Duration,
      taking each entry in order and replacing the maximum only when strictly
      larger. */
  function MaxDuration(m: MetaData): (r: Duration)
    ensures r >= 0
    ensures forall i :: 0 <= i < |m| ==> m[i].dur <= r
    ensures r == 0 || exists i :: 0 <= i < |m| && m[i].dur == r
  {
    if |m| == 0 then 0
    else
      var max := MaxDuration(m[..|m| - 1]);
      assert forall i :: 0 <= i < |m| - 1 ==> m[..|m| - 1][i] == m[i];
      if max < m[|m| - 1].dur then m[|m| - 1].dur else max
  }

  /** The running minimum of the `MinDuration` loop over a non-empty run: the
      first entry seeds it, later entries replace it only when strictly smaller. */
  function LeastDuration(s: MetaData): (r: Duration)
    requires |s| >= 1
    ensures forall i :: 0 <= i < |s| ==> r <= s[i].dur
    ensures exists i :: 0 <= i < |s| && s[i].dur == r
  {
    if |s| == 1 then s[0].dur
    else
      var min := LeastDuration(s[..|s| - 1]);
      assert forall i :: 0 <= i < |s| - 1 ==> s[..|s| - 1][i] == s[i];
      if s[|s| - 1].dur < min then s[|s| - 1].dur else min
  }

  /** The smallest `dur` after the first checkpoint, or 0 when there is only the
      first. The first entry is skipped by slicing `m[1:]`, which fails on an
      empty trace, hence the precondition. */
  function MinDuration(m: MetaData): (r: Duration)
    requires |m| >= 1
    ensures |m| == 1 ==> r == 0
    ensures |m| >= 2 ==> forall i :: 1 <= i < |m| ==> r <= m[i].dur
    ensures |m| >= 2 ==> exists i :: 1 <= i < |m| && m[i].dur == r
  {
    if |m| == 1 then 0
    else
      var r := LeastDuration(m[1..]);
      assert forall i :: 1 <= i < |m| ==> m[1..][i - 1] == m[i];
      r
  }

  /** The contract of MaxDuration pins its result down: any value meeting it is
      MaxDuration, and MaxDuration meets it. */
  lemma MaxDurationCharacterized(m: MetaData, r: int)
    ensures IsMaxDuration(m, r) <==> r == MaxDuration(m)
  {
  }

  /** Likewise the least duration of a run is determined by its contract. */
  lemma LeastDurationCharacterized(s: MetaData, r: int)
    requires |s| >= 1
    ensures IsLeastDuration(s, r) <==> r == LeastDuration(s)
  {
  }

  /** Appending a checkpoint after the first updates the minimum incrementally;
      the first checkpoint never takes part. */
  lemma MinDurationAppend(m: MetaData, e: Meta)
    requires |m| >= 1
    ensures MinDuration(m + [e]) == if |m| == 1 || e.dur < MinDuration(m) then e.dur else MinDuration(m)
  {
    if |m| >= 2 {
      assert (m + [e])[1..] == m[1..] + [e];
      assert (m[1..] + [e])[..|m| - 1] == m[1..];
    } else {
      assert (m + [e])[1..] == [e];
    }
  }

  /** Whenever there are two or more checkpoints the minimum does not exceed the
      maximum. */
  lemma MinDurationAtMostMax(m: MetaData)
    requires |m| >= 1
    ensures MinDuration(m) <= MaxDuration(m)
  {
  }
}

=== FILE: tracker.dfy ===
/** The tracking session: `New` opens a trace with one checkpoint, `Update`
    appends one checkpoint per call, `Configure` attaches fresh column options.

    The clock readings are arguments, and so is the name a stack walk would
    produce. The logging flag, the message format and the renderer field are
    not modelled.
 */
module Tracker {
  import opened Clock
  import opened Trace
  import opened Columns

  /** A Go pointer that may be nil. */
  datatype Option<T> = None | Some(value: T)

  /** `Track`: the trace, the stack depth used to name checkpoints, and the
      options `Configure` attached (nil until it is called). */
  datatype Track = Track(data: MetaData, callerSkip: int, options: Option<Options>)

  /** The error `Update` returns on a track that has no first checkpoint. */
  const UninitializedTrace: GoError := Error("at first need to invoke New(int)")

  /** The arguments of one `Update` call, with the three clock readings the
      call makes, in the order Go evaluates them: the new checkpoint's start,
      the reading behind `Dur`, and the reading behind `StartDif`. */
  datatype Call = Call(name: string, now: Instant, nowDur: Instant, nowDif: Instant, err: GoError)

  /** `New`: a track holding one checkpoint taken at `now`, with zero
      durations and no error. Naming the checkpoint walks `callerSkip` stack
      frames into a slice of that length and reads its first entry, which
      panics unless `callerSkip` is positive. */
  function New(callerSkip: int, name: string, now: Instant): (t: Track)
    requires callerSkip >= 1
    ensures |t.data| == 1
    ensures t.data[0].name == name && t.data[0].start == now
    ensures t.data[0].dur == 0 && t.data[0].startDif == 0 && t.data[0].err == Nil
    ensures t.callerSkip == callerSkip && t.options == None
  {
    Track([Meta(name, now, 0, 0, Nil)], callerSkip, None)
  }

  /** `Update`: on an empty trace, the fixed error and the track as it was;
      otherwise nil and the track with one checkpoint appended. The new
      checkpoint starts at `now`; its `Dur` is measured at `nowDur` from the
      last checkpoint and its `StartDif` at `nowDif` from the first. Naming the
      checkpoint needs a positive `callerSkip`, as for `New`. */
  function Update(t: Track, name: string, now: Instant, nowDur: Instant, nowDif: Instant, err: GoError)
    : (r: (Track, GoError))
    requires |t.data| == 0 || t.callerSkip >= 1
    ensures |t.data| == 0 ==> r == (t, UninitializedTrace)
    ensures |t.data| > 0 ==> r.1 == Nil
    ensures r.0.callerSkip == t.callerSkip && r.0.options == t.options
    ensures |t.data| > 0 ==> |r.0.data| == |t.data| + 1 && r.0.data[..|t.data|] == t.data
    ensures |t.data| > 0 ==>
      var e := r.0.data[|t.data|];
      && e.name == name
      && e.start == now
      && e.dur == Elapsed(nowDur, t.data[|t.data| - 1].start)
      && e.startDif == Elapsed(nowDif, t.data[0].start)
      && e.err == err
  {
    if |t.data| < 1 then (t, UninitializedTrace)
    else
      var meta := Meta(
        name,
        now,
        Elapsed(nowDur, t.data[|t.data| - 1].start),
        Elapsed(nowDif, t.data[0].start),
        err);
      (t.(data := t.data + [meta]), Nil)
  }

  /** `Configure`: attaches fresh all-false options to the track and returns
      them; the trace is untouched. */
  function Configure(t: Track): (r: (Track, Options))
    ensures forall f :: !Has(r.1, f)
    ensures r.0.options == Some(r.1)
    ensures r.0.data == t.data && r.0.callerSkip == t.callerSkip
  {
    var o := NoOptions();
    (t.(options := Some(o)), o)
  }

  /** `t.Configure().WithX()...`: the setters act on the very options the track
      now points to, so the track ends up with the chain's options. The
      selected columns are exactly those the chain names, each once, in the
      fixed output order. */
  function ConfigureChain(t: Track, cs: seq<Column>): (r: Track)
    ensures r.data == t.data && r.callerSkip == t.callerSkip
    ensures r.options.Some?
    ensures forall c :: c in Selected(r.options.value) <==> c in cs
    ensures InOrder(Selected(r.options.value))
    ensures !r.options.value.withLink
  {
    var o := EnableAll(Configure(t).1, cs);
    SelectedColumns(o);
    t.(options := Some(o))
  }

  /** A sequence of `Update` calls, each on the track the previous one left. */
  function Run(t: Track, calls: seq<Call>): (r: Track)
    requires t.callerSkip >= 1
    ensures r.callerSkip == t.callerSkip
  {
    if |calls| == 0 then t
    else
      var c := calls[|calls| - 1];
      Update(Run(t, calls[..|calls| - 1]), c.name, c.now, c.nowDur, c.nowDif, c.err).0
  }

  /** `data` is what a first checkpoint followed by `calls` records: zero
      durations first, then one checkpoint per call carrying its name, start
      and error, with `Dur` measured from the previous checkpoint and
      `StartDif` from the first. */
  ghost predicate Recorded(data: MetaData, calls: seq<Call>)
  {
    && |data| == |calls| + 1
    && data[0].dur == 0
    && data[0].startDif == 0
    && forall i :: 0 <= i < |calls| ==>
         data[i + 1] == Meta(calls[i].name, calls[i].now,
                             Elapsed(calls[i].nowDur, data[i].start),
                             Elapsed(calls[i].nowDif, data[0].start),
                             calls[i].err)
  }

  /** A monotonic clock: every reading is no earlier than the one before,
      starting from the first checkpoint's start. */
  ghost predicate ClockForward(start: Instant, calls: seq<Call>)
  {
    && (|calls| > 0 ==> start <= calls[0].now)
    && (forall i :: 0 <= i < |calls| ==> calls[i].now <= calls[i].nowDur <= calls[i].nowDif)
    && (forall i :: 1 <= i < |calls| ==> calls[i - 1].nowDif <= calls[i].now)
  }

  /** Start times never decrease along the trace. */
  ghost predicate StartsForward(data: MetaData)
  {
    forall i :: 1 <= i < |data| ==> data[i - 1].start <= data[i].start
  }

  /** A successful `Update` extends what the trace records by its own call. */
  lemma UpdateRecords(t: Track, calls: seq<Call>, c: Call)
    requires t.callerSkip >= 1
    requires Recorded(t.data, calls)
    ensures Update(t, c.name, c.now, c.nowDur, c.nowDif, c.err).1 == Nil
    ensures Recorded(Update(t, c.name, c.now, c.nowDur, c.nowDif, c.err).0.data, calls + [c])
  {
    var d := Update(t, c.name, c.now, c.nowDur, c.nowDif, c.err).0.data;
    assert forall i :: 0 <= i < |t.data| ==> d[i] == t.data[i];
    assert forall i :: 0 <= i < |calls| ==> (calls + [c])[i] == calls[i];
  }

  /** Starting from `New`, a run of `Update` calls never fails: the trace is
      the first checkpoint followed by what the calls record. */
  lemma {:induction false} RunFromNew(callerSkip: int, name: string, now: Instant, calls: seq<Call>)
    requires callerSkip >= 1
    ensures var t := Run(New(callerSkip, name, now), calls);
      && Recorded(t.data, calls)
      && t.data[0] == New(callerSkip, name, now).data[0]
  {
    if |calls| > 0 {
      var prefix := calls[..|calls| - 1];
      RunFromNew(callerSkip, name, now, prefix);
      var before := Run(New(callerSkip, name, now), prefix);
      var c := calls[|calls| - 1];
      UpdateRecords(before, prefix, c);
      assert prefix + [c] == calls;
    }
  }

  /** With a monotonic clock, start times never decrease along the trace. */
  lemma RecordedStartsForward(data: MetaData, calls: seq<Call>)
    requires Recorded(data, calls)
    requires ClockForward(data[0].start, calls)
    ensures StartsForward(data)
  {
    forall i | 1 <= i < |data|
      ensures data[i - 1].start <= data[i].start
    {
      assert data[i].start == calls[i - 1].now;
      if i > 1 {
        assert data[i - 1].start == calls[i - 2].now;
      }
    }
  }

  /** Start times that never decrease between neighbours never decrease
      between any two checkpoints. */
  lemma {:induction false} StartsOrdered(data: MetaData, i: int, j: int)
    requires StartsForward(data)
    requires 0 <= i <= j < |data|
    ensures data[i].start <= data[j].start
    decreases j - i
  {
    if i < j {
      StartsOrdered(data, i, j - 1);
    }
  }

  /** With a monotonic clock, the three readings of each `Update` bound its
      checkpoint: `Dur` is at least the gap between the two starts and is
      never negative; `StartDif` is at least the time from the first start,
      at least `Dur`, and never decreases along the trace. The readings are
      not equal, so these are bounds and not identities. */
  lemma ForwardClockBounds(data: MetaData, calls: seq<Call>)
    requires Recorded(data, calls)
    requires ClockForward(data[0].start, calls)
    ensures forall i :: 0 <= i < |data| ==> 0 <= data[i].dur <= data[i].startDif
    ensures forall i :: 1 <= i < |data| ==> data[i].dur >= Elapsed(data[i].start, data[i - 1].start)
    ensures forall i :: 1 <= i < |data| ==> data[i].startDif >= Elapsed(data[i].start, data[0].start)
    ensures forall i :: 1 <= i < |data| ==> data[i - 1].startDif <= data[i].startDif
  {
    RecordedStartsForward(data, calls);
    forall i | 1 <= i < |data|
      ensures 0 <= data[i].dur <= data[i].startDif
      ensures data[i].dur >= Elapsed(data[i].start, data[i - 1].start)
      ensures data[i].startDif >= Elapsed(data[i].start, data[0].start)
      ensures data[i - 1].startDif <= data[i].startDif
    {
      var c := calls[i - 1];
      var s0, prev := data[0].start, data[i - 1].start;
      assert data[i].start == c.now;
      assert data[i].dur == Elapsed(c.nowDur, prev);
      assert data[i].startDif == Elapsed(c.nowDif, s0);
      StartsOrdered(data, 0, i - 1);
      StartsOrdered(data, i - 1, i);
      ElapsedMonotone(c.now, c.nowDur, prev);
      ElapsedMonotone(c.nowDur, c.nowDif, s0);
      ElapsedAntitone(c.nowDur, s0, prev);
      ElapsedMonotone(c.now, c.nowDif, s0);
      if i > 1 {
        var b := calls[i - 2];
        assert data[i - 1].startDif == Elapsed(b.nowDif, s0);
        ElapsedMonotone(b.nowDif, c.nowDif, s0);
      }
    }
  }

  /** The statistics of a fresh trace are both zero. */
  lemma NewStatistics(callerSkip: int, name: string, now: Instant)
    requires callerSkip >= 1
    ensures MaxDuration(New(callerSkip, name, now).data) == 0
    ensures MinDuration(New(callerSkip, name, now).data) == 0
  {
  }

  /** A successful `Update` appends exactly its new checkpoint. */
  lemma UpdateAppends(t: Track, name: string, now: Instant, nowDur: Instant, nowDif: Instant, err: GoError)
    requires |t.data| >= 1 && t.callerSkip >= 1
    ensures Update(t, name, now, nowDur, nowDif, err).0.data
         == t.data + [Meta(name, now, Elapsed(nowDur, t.data[|t.data| - 1].start), Elapsed(nowDif, t.data[0].start), err)]
  {
  }

  /** A successful `Update` moves the statistics by its new checkpoint alone:
      the maximum rises to the new `Dur` when that is larger, and the minimum
      becomes the new `Dur` on the first update or when that is smaller. */
  lemma UpdateStatistics(t: Track, name: string, now: Instant, nowDur: Instant, nowDif: Instant, err: GoError)
    requires |t.data| >= 1 && t.callerSkip >= 1
    ensures var d := Update(t, name, now, nowDur, nowDif, err).0.data;
      var dur := Elapsed(nowDur, t.data[|t.data| - 1].start);
      && MaxDuration(d) == (if MaxDuration(t.data) < dur then dur else MaxDuration(t.data))
      && MinDuration(d) == (if |t.data| == 1 || dur < MinDuration(t.data) then dur else MinDuration(t.data))
  {
    var e := Meta(name, now, Elapsed(nowDur, t.data[|t.data| - 1].start), Elapsed(nowDif, t.data[0].start), err);
    UpdateAppends(t, name, now, nowDur, nowDif, err);
    assert (t.data + [e])[..|t.data|] == t.data;
    MinDurationAppend(t.data, e);
  }
}
